=== FILE: README.md ===
# Registry API request context, modelled in Dafny

This project models the request/response context of the PDS registry API:
the object built once per request that negotiates the output format from the
Accept header, computes the list of fields to ask the registry for, scopes the
version selector used to resolve the product identifier, and assembles the
response (singular lookups classified by hit count, plural pages with a
summary, externally known totals). It also models the group-constraint value
type (`all` / `any` / `not` keyword-value maps) and the CSV converter for
error messages.

Modules:

- `Common` (common.dfy): `Option`, a tagged `Result`, the exceptions as an
  `Error` variant, and Java's `(int)` narrowing of a `long`.
- `Text` (text.dfy): `indexOf`, cutting at a character, and a tokenizer that
  skips empty tokens. A round-trip lemma covers the tokenizer: splitting a joined list gives the list back.
- `Negotiation` (negotiation.dfy): the eleven-entry format table, with the
  formatter classes as a closed variant, and `FindMatch`.
- `OutputNeeds` (output_needs.dfy): the field-list computation.
- `Versions` (versions.dfy): the `Selector` enum, identifiers (LID or
  LIDVID), the selector scoping, and `JustLatest`.
- `Groups` (groups.dfy): `GroupConstraint` and the predicate saying which documents it admits.
- `RequestContext` (request_context.dfy): the constructor as a function
  `Build` from the user's parameters to a `Context` or an error.
- `Responses` (responses.dfy): the `setResponse` overloads, `getResponse` and
  the builder for a page of identifiers.
- `CsvErrors` (csv_errors.dfy): `supports`, `readInternal` and `writeInternal`.

Collaborators whose code is not part of this model are parameters:

- `needs` gives each formatter class its minimal and maximal field lists.
- `toOpen` is the property-name translation `SearchUtil.jsonPropertyToOpenProperty`. It is an arbitrary function from lists to lists, applied to the user's fields and to both descriptor lists.
- `resolve` is identifier resolution (`LidVidUtils.resolve`). It receives the raw identifier, the scoped selector, the "latest" flag, the final field list and the resolution preset.
- `backend` stands for the registry search with a given `from`/`size` window. It returns a hit set, null, or the I/O failure of the round trip, and the hit set's total may be missing.

Modelling choices:

- Equality of group constraints is structural.
- Several values under one keyword of a group constraint combine by OR.
- An empty `any` map imposes nothing.
- A `null` field list from the user is modelled as the empty list. `add_output_needs` takes the same branches for both.
- The Accept value, the keyword list and the sort list are never null. The search request always carries a query. The Java code dereferences each of them without a check: the Accept value when tokenizing it, the two lists and the query when logging. A null there would end in a null dereference, which this model does not represent.

Notes on the code's behaviour:

- `justLatest` is false whenever the resolved identifier is a LIDVID. This holds whether the caller typed the version or resolution derived it (`RequestContext.BuiltJustLatest`).
- The computed field list keeps duplicates that the user's own list contains. It is duplicate-free when the user's list is (`OutputNeeds.OutputNeedsDistinct`).
- When no Accept entry matches, the raw header value is kept as the format. The first entry is not used instead.
- Singular mode turns two or more hits into an `IOException` (`AmbiguousSingular`).
- A request whose context has no identifier and that finds nothing fails with a null dereference, not with `NothingFoundException`. The log line before the throw dereferences the identifier (`Responses.GetResponse`).

## Model

| member | source | states |
|---|---|---|
| `Text.IndexOf` | service/src/main/java/gov/nasa/pds/api/registry/model/RequestAndResponseContext.java:264-265 | the result is the position of the first occurrence of the character, or the length when it does not occur |
| `Text.CutAt` | service/src/main/java/gov/nasa/pds/api/registry/model/RequestAndResponseContext.java:264-265 | the result is the prefix before the first `;`, holds no `;`, and is the whole string exactly when there is no `;` |
| `Text.Tokens` | service/src/main/java/gov/nasa/pds/api/registry/model/RequestAndResponseContext.java:259-263 | every token is non-empty and holds no delimiter; a string without a delimiter is its own single token, and the empty string has none |
| `Text.TokensOfConcat` | service/src/main/java/gov/nasa/pds/api/registry/model/RequestAndResponseContext.java:259-263 | the tokens of `s1 + "," + s2` are the tokens of `s1` followed by those of `s2`, so empty entries (leading, trailing, doubled commas) yield nothing |
| `Text.TokensOfJoin` | service/src/main/java/gov/nasa/pds/api/registry/model/RequestAndResponseContext.java:259-263 | tokenizing a comma-joined list of well-formed entries gives back exactly those entries in order |
| `Negotiation.KeysAreTokens` | service/src/main/java/gov/nasa/pds/api/registry/model/RequestAndResponseContext.java:113-124 | every registered key is non-empty and contains neither `,` nor `;` |
| `Negotiation.KeysNegotiateThemselves` | service/src/main/java/gov/nasa/pds/api/registry/model/RequestAndResponseContext.java:113-124 | an Accept value that is exactly one of the eleven keys names a registered format |
| `Negotiation.FirstRegistered` | service/src/main/java/gov/nasa/pds/api/registry/model/RequestAndResponseContext.java:261-271 | the index found is a registered entry and no earlier entry is registered; it is the length when none is |
| `Negotiation.FindMatch` | service/src/main/java/gov/nasa/pds/api/registry/model/RequestAndResponseContext.java:257-274 | the format is the first entry in client order, cut at `;` and not trimmed, that is registered; the raw header when none is; the result is registered iff some entry is |
| `Negotiation.ClientOrderWins` | service/src/main/java/gov/nasa/pds/api/registry/model/RequestAndResponseContext.java:257-271 | a registered first entry wins whatever entries follow it |
| `Negotiation.BrowserHeaderPicksHtml` | service/src/main/java/gov/nasa/pds/api/registry/model/RequestAndResponseContext.java:257-271 | `text/html,application/json;q=0.9` negotiates `text/html` |
| `OutputNeeds.AppendMissing` | service/src/main/java/gov/nasa/pds/api/registry/model/RequestAndResponseContext.java:233-240 | the given list is kept as a prefix; each appended field is a minimal need not already present, appended once, in the order of its first occurrence among the minimal needs; membership is the union |
| `OutputNeeds.KeepAllowed` | service/src/main/java/gov/nasa/pds/api/registry/model/RequestAndResponseContext.java:242-252 | the result is an order-preserving sublist that keeps every occurrence of each allowed entry (repeats included) and no other entry |
| `OutputNeeds.AddOutputNeeds` | service/src/main/java/gov/nasa/pds/api/registry/model/RequestAndResponseContext.java:209-255 | fails with the format and the registered keys iff the format is unregistered; with an allow-list every field is allowed; with fields requested or an allow-list every allowed minimal need and given field is present; with neither the list is empty |
| `OutputNeeds.OutputNeedsOrder` | service/src/main/java/gov/nasa/pds/api/registry/model/RequestAndResponseContext.java:232-254 | with an allow-list the result is the given fields followed by the missing minimal needs, with the disallowed entries deleted in place and every allowed entry kept as often as it occurs; without one, when fields were given, it is that list itself |
| `OutputNeeds.OutputNeedsDistinct` | service/src/main/java/gov/nasa/pds/api/registry/model/RequestAndResponseContext.java:232-254 | the computed list repeats no field when the translated given list repeats none |
| `Versions.VersionScope` | service/src/main/java/gov/nasa/pds/api/registry/model/RequestAndResponseContext.java:110-111 | resolution uses the user's selector when the output and resolution presets are equal, TYPED otherwise |
| `Versions.JustLatest` | service/src/main/java/gov/nasa/pds/api/registry/model/RequestAndResponseContext.java:203-207 | true exactly when the selector is LATEST and the resolved identifier is not a LIDVID |
| `RequestContext.Build` | service/src/main/java/gov/nasa/pds/api/registry/model/RequestAndResponseContext.java:100-142 | an Accept value with no registered entry fails with UnsupportedFormat; a built context has the negotiated format, which is registered, and its formatter, the computed fields, the identifier resolved with those fields under the scoped selector, and the user's paging, sort, query, selector and the output preset |
| `RequestContext.UnsupportedFailsBeforeResolution` | service/src/main/java/gov/nasa/pds/api/registry/model/RequestAndResponseContext.java:128-135 | with an unsupported Accept value the outcome is the same failure whatever the resolver does |
| `RequestContext.BuiltJustLatest` | service/src/main/java/gov/nasa/pds/api/registry/model/RequestAndResponseContext.java:133-135 | for a built context, the latest-only filter is on exactly when the user chose LATEST and the resolver answered no identifier or a LID alone |
| `RequestContext.ScopeFollowsPresets` | service/src/main/java/gov/nasa/pds/api/registry/model/RequestAndResponseContext.java:110-135 | the resolver is called with the user's selector when the presets coincide and with TYPED otherwise |
| `Common.ToInt32` | service/src/main/java/gov/nasa/pds/api/registry/model/RequestAndResponseContext.java:322 | the narrowed total is a 32-bit value congruent to the input modulo 2^32 and equal to it when it fits |
| `Responses.RequestedWindow` | service/src/main/java/gov/nasa/pds/api/registry/model/RequestAndResponseContext.java:343-369 | singular mode asks for size 2 from offset 0; plural mode for size `limit` from `start` |
| `Responses.WithTotal` | service/src/main/java/gov/nasa/pds/api/registry/model/RequestAndResponseContext.java:325-340 | a null hit set sets nothing; otherwise the formatter gets the hits and a summary reporting the given total verbatim, the given unique properties, and the context's query, start, limit and sort |
| `Responses.IteratorSummary` | service/src/main/java/gov/nasa/pds/api/registry/model/RequestAndResponseContext.java:301-314 | the formatter's count is reported unless the real total is positive, in which case the real total replaces it |
| `Responses.IteratorMatchesExplicitTotal` | service/src/main/java/gov/nasa/pds/api/registry/model/RequestAndResponseContext.java:301-332 | with a positive real total, the hit-iterator summary equals the summary the explicit-total overload builds for that total, whatever the formatter counted |
| `Responses.SetResponse` | service/src/main/java/gov/nasa/pds/api/registry/model/RequestAndResponseContext.java:342-372 | a failed search passes its error through; singular: count 1 formats the first hit, or fails at run time when the hit set holds no document, count above 1 or a missing count is an I/O failure, count below 1 sets nothing; plural: null hits set nothing, a missing total fails at run time, otherwise a page for the context's formatter and fields whose summary reports the registry total narrowed to int, with unset properties and the context's query, start, limit and sort |
| `Responses.GetResponse` | service/src/main/java/gov/nasa/pds/api/registry/model/RequestAndResponseContext.java:276-299 | the payload when one was set; otherwise NothingFound when the context has an identifier, and the null-dereference error when it has none, because the log line dereferences the identifier first |
| `Responses.Respond` | service/src/main/java/gov/nasa/pds/api/registry/model/RequestAndResponseContext.java:276-299 | a query failure passes through; a query that set no payload ends in NothingFound, or in the null-dereference error when the context has no identifier; a set payload is returned |
| `Responses.SingularIgnoresPaging` | service/src/main/java/gov/nasa/pds/api/registry/model/RequestAndResponseContext.java:343-347 | in singular mode the outcome does not depend on the user's start and limit |
| `Responses.SingularZeroOneMany` | service/src/main/java/gov/nasa/pds/api/registry/model/RequestAndResponseContext.java:343-366 | 0 hits end in NothingFound when an identifier was resolved and in the null-dereference error otherwise, 1 hit in that hit formatted, 2 or more in an ambiguity failure |
| `Responses.PluralEmptyIsPage` | service/src/main/java/gov/nasa/pds/api/registry/model/RequestAndResponseContext.java:367-370 | in plural mode an empty hit set is a page reporting zero hits, not NothingFound |
| `Responses.BuildForPage` | service/src/main/java/gov/nasa/pds/api/registry/model/RequestAndResponseContext.java:55-76 | the context is built with the same preset on both sides, the search uses the page's size, its failure passes through, and the page is handed the context's formatter and fields with a summary that reports the page's total, unset properties and the context's query, start, limit and sort |
| `Responses.BatchReportsKnownTotal` | service/src/main/java/gov/nasa/pds/api/registry/model/RequestAndResponseContext.java:72-74 | three identifiers fetched out of a known total of nine report nine hits with three documents |
| `Groups.UnconstrainedAdmitsAll` | service/src/main/java/gov/nasa/pds/api/registry/GroupConstraint.java:8-27 | a group with all three maps empty admits every document |
| `Groups.AddAllEntry` | service/src/main/java/gov/nasa/pds/api/registry/GroupConstraint.java:10-14 | an added `all` entry admits exactly the previously admitted documents that also satisfy it |
| `Groups.AddAnyEntry` | service/src/main/java/gov/nasa/pds/api/registry/GroupConstraint.java:16-20 | added to a non-empty `any` part, an entry widens it by exactly the documents satisfying that entry; added to an empty `any` part, it narrows admission to the documents satisfying that entry |
| `Groups.AddNotEntry` | service/src/main/java/gov/nasa/pds/api/registry/GroupConstraint.java:22-26 | an added `not` entry admits exactly the previously admitted documents that fail it |
| `Groups.EmptyValueList` | service/src/main/java/gov/nasa/pds/api/registry/GroupConstraint.java:10-26 | a keyword listed without values excludes everything under `all`; under `not` it excludes nothing, so removing it leaves admission unchanged |
| `CsvErrors.SupportIsInherited` | service/src/main/java/gov/nasa/pds/api/engineering/serializer/CsvErrorMessageSerializer.java:21 | a subclass of a supported class is supported |
| `CsvErrors.ReadInternal` | service/src/main/java/gov/nasa/pds/api/engineering/serializer/CsvErrorMessageSerializer.java:24-25 | reading yields an ErrorMessage with no field set, whatever the input |
| `CsvErrors.WriteInternal` | service/src/main/java/gov/nasa/pds/api/engineering/serializer/CsvErrorMessageSerializer.java:28-40 | output exists iff both fields are set; it is the header line, `"`, the request, `","`, the message, `"` and one line end, with the request and message copied unescaped |
| `CsvErrors.BodyRoundTrip` | service/src/main/java/gov/nasa/pds/api/engineering/serializer/CsvErrorMessageSerializer.java:33-38 | a quote-free request and message are read back from the quoted row |
| `CsvErrors.RowRoundTrip` | service/src/main/java/gov/nasa/pds/api/engineering/serializer/CsvErrorMessageSerializer.java:32-38 | reading back the written output of quote-free fields recovers the request and the message |
| `CsvErrors.QuotesAreAmbiguous` | service/src/main/java/gov/nasa/pds/api/engineering/serializer/CsvErrorMessageSerializer.java:34-36 | with embedded `","` two different messages produce the same bytes |
| `CsvErrors.ReadThenWriteFails` | service/src/main/java/gov/nasa/pds/api/engineering/serializer/CsvErrorMessageSerializer.java:25-36 | a message obtained by reading cannot be written, since its fields are unset |

## Left out

- Elapsed time (`took`) is omitted. It is wall-clock time, read from the system clock at construction and when a response is set.
- Logging is omitted, and so are the texts of the logged and thrown messages. In this model, the one log line whose argument can fail is the identifier string on the nothing-found path. It is modelled as `Common.Runtime` in `Responses.GetResponse`. Errors carry their kind and data, such as the rejected format with the registered keys, or the hit count.
- The search request built by the search-request factory is not modelled, and neither is the registry round trip. The backend is a parameter that maps a window (or a page of identifiers and a size) to a hit set.
- Identifier resolution is not modelled. The resolver is a parameter, and its errors pass through `Build` unchanged.
- The formatter classes' minimal and maximal field lists and their object mapper are parameters or left out. So are their internal `setResponse` and `getResponse`. A payload records what the formatter is handed. The model assumes a formatter that is handed hits produces a non-null response.
- The property-name translation is left out. It is an arbitrary list function.
- The getters and `getKeyValuePairs` are omitted. Apart from `getProductIdentifierString`, they only return fields (the latter always an empty map). `getProductIdentifierString` dereferences the identifier; its one use on a modelled path is in `Responses.GetResponse`.
- `isTerm` is omitted. It is the constant `true`.
- The `HitIterator` overload is modelled through its summary only (`Responses.IteratorSummary`), because the iterator is consumed by the formatter.
- Merging several group constraints is not modelled. No code in this model merges them.
- Translating a group constraint into a search query is not modelled. It is done by the search-request factory, which is not part of this model.
- The CSV converter's output stream handling is omitted. So is its registration for the media types application/csv and text/csv, because matching a request's media type against them is done by Spring.
- `CsvErrors.WriteInternal`: when a field is null the model yields no output. The Java writer has already written the header line and a quote before it fails.
- `Responses.SetResponse`: the unchecked exceptions a hit set without a total or an empty single-hit set would raise are one `Runtime` error kind. The model does not distinguish them further.
- The controller layer is not part of this model. It maps exceptions to HTTP statuses.

=== FILE: common.dfy ===
/** Shared value types: optional values, tagged results and the error kinds
    the request context raises as exceptions. */
module Common {

  datatype Option<+T> = None | Some(value: T)

  /** The exceptions of the request context, as data. */
  datatype Error =
    /** ApplicationTypeException: the negotiated format is not a registered key. */
    | UnsupportedFormat(value: string, supported: set<string>)
    /** LidVidNotFoundException: only identifier resolution (the resolver
        parameter) raises it; `Build` passes it through. */
    | LidVidNotFound(identifier: string)
    /** NothingFoundException: no payload was produced for the request. */
    | NothingFound
    /** IOException: a singular query matched more than one document. */
    | AmbiguousSingular(count: int)
    /** IOException: the registry response carried no parsable hit count. */
    | UnparsableHitCount
    /** An IOException raised by the registry search round trip itself. */
    | BackendIO(message: string)
    /** An unchecked runtime exception (null dereference, index out of range). */
    | Runtime(message: string)

  datatype Result<+T> = Ok(value: T) | Err(error: Error) {
    predicate IsFailure() { Err? }

    function PropagateFailure<U>(): Result<U>
      requires Err?
    {
      Err(error)
    }

    function Extract(): T
      requires Ok?
    {
      value
    }
  }

  /** Java's narrowing cast `(int)` of a `long`: keep the low 32 bits, read
      them as a two's-complement number. */
  function ToInt32(x: int): (r: int)
    ensures -0x8000_0000 <= r < 0x8000_0000
    ensures (x - r) % 0x1_0000_0000 == 0
    ensures -0x8000_0000 <= x < 0x8000_0000 ==> r == x
  {
    (x + 0x8000_0000) % 0x1_0000_0000 - 0x8000_0000
  }
}

=== FILE: csv_errors.dfy ===
/** The CSV message converter for error responses: one header line, then
    one row holding the request and the message, each between double quotes
    and written without escaping. */
module CsvErrors {
  import opened Common
  import opened Text

  /** An error response body; either field may be unset (null). */
  datatype ErrorMessage = ErrorMessage(request: Option<string>, message: Option<string>)

  datatype JavaClass = JavaClass(name: string, supertypes: set<string>)

  const ErrorMessageClass := "gov.nasa.pds.model.ErrorMessage"

  const Header := "request,message\n"

  /** The converter handles ErrorMessage and its subclasses, nothing else. */
  predicate Supports(c: JavaClass)
  {
    c.name == ErrorMessageClass || ErrorMessageClass in c.supertypes
  }

  /** Support is inherited: a subclass of a supported class is supported. */
  lemma SupportIsInherited(c: JavaClass, d: JavaClass)
    requires Supports(c)
    requires c.name in d.supertypes && c.supertypes <= d.supertypes
    ensures Supports(d)
  {
  }

  /** Reading ignores the input and yields an ErrorMessage with no fields set. */
  function ReadInternal(input: string): (r: ErrorMessage)
    ensures r.request.None? && r.message.None?
  {
    ErrorMessage(None, None)
  }

  /** The bytes written for an error message; `None` when a field is unset,
      where the writer fails on the null string. */
  function WriteInternal(t: ErrorMessage): (r: Option<string>)
    ensures r.Some? <==> t.request.Some? && t.message.Some?
    ensures r.Some? ==>
      var out, req, msg := r.value, t.request.value, t.message.value;
      && |out| == |Header| + |req| + |msg| + 6
      && out[..|Header|] == Header
      && out[|Header|] == '"'
      && out[|Header| + 1 .. |Header| + 1 + |req|] == req
      && out[|Header| + 1 + |req| .. |Header| + 4 + |req|] == "\",\""
      && out[|Header| + 4 + |req| .. |out| - 2] == msg
      && out[|out| - 2..] == "\"\n"
  {
    match (t.request, t.message)
    case (Some(req), Some(msg)) =>
      var out := Header + Row(req, msg);
      assert out[..|Header|] == Header;
      assert out[|Header| + 1 .. |Header| + 1 + |req|] == req;
      assert out[|Header| + 1 + |req| .. |Header| + 4 + |req|] == "\",\"";
      assert out[|Header| + 4 + |req| .. |out| - 2] == msg;
      assert out[|out| - 2..] == "\"\n";
      Some(out)
    case _ => None
  }

  /** The quoted row after the header, up to and including its line end. */
  function Row(req: string, msg: string): string
  {
    "\"" + req + "\",\"" + msg + "\"\n"
  }

  /** Reads one quoted row back into its two fields. */
  function ParseBody(body: string): Option<(string, string)>
  {
    if body == [] || body[0] != '"' then None
    else
      var rest := body[1..];
      var i := IndexOf(rest, '"');
      if i + 3 > |rest| || rest[i..i + 3] != "\",\"" then None
      else
        var rest2 := rest[i + 3..];
        var j := IndexOf(rest2, '"');
        if rest2[j..] != "\"\n" then None
        else Some((rest[..i], rest2[..j]))
  }

  /** Reads a header line and one quoted row back into its two fields. */
  function ParseRow(s: string): Option<(string, string)>
  {
    if |s| < |Header| || s[..|Header|] != Header then None
    else ParseBody(s[|Header|..])
  }

  /** A quote-free field followed by a quote: the quote is the first one. */
  lemma QuotedField(x: string, after: string)
    requires '"' !in x
    ensures var s := x + ['"'] + after;
      IndexOf(s, '"') == |x| && s[..|x|] == x && s[|x|..] == ['"'] + after
  {
    IndexOfPrefix(x, after, '"');
    var s := x + ['"'] + after;
    assert s[..|x|] == x;
    assert s[|x|..] == ['"'] + after;
  }

  lemma BodyRoundTrip(req: string, msg: string)
    requires '"' !in req && '"' !in msg
    ensures ParseBody(Row(req, msg)) == Some((req, msg))
  {
    var body := Row(req, msg);
    var rest := body[1..];
    var rest2 := msg + ['"'] + "\n";
    assert rest == req + ['"'] + (",\"" + rest2);
    QuotedField(req, ",\"" + rest2);
    var i := |req|;
    assert rest[i..] == "\",\"" + rest2;
    assert rest[i..i + 3] == "\",\"";
    assert rest[i + 3..] == rest2;
    QuotedField(msg, "\n");
  }

  /** Fields free of double quotes are recovered from the written row. */
  lemma RowRoundTrip(req: string, msg: string)
    requires '"' !in req && '"' !in msg
    ensures WriteInternal(ErrorMessage(Some(req), Some(msg))).Some?
    ensures ParseRow(WriteInternal(ErrorMessage(Some(req), Some(msg))).value) == Some((req, msg))
  {
    var out := WriteInternal(ErrorMessage(Some(req), Some(msg))).value;
    assert out == Header + Row(req, msg);
    assert out[|Header|..] == Row(req, msg);
    BodyRoundTrip(req, msg);
  }

  /** Without escaping, distinct messages can be written identically: a
      request holding `","` cannot be told apart from a message holding it. */
  lemma QuotesAreAmbiguous()
    ensures WriteInternal(ErrorMessage(Some("a\",\"b"), Some("c")))
         == WriteInternal(ErrorMessage(Some("a"), Some("b\",\"c")))
  {
    assert Row("a\",\"b", "c") == "\"a\",\"b\",\"c\"\n" == Row("a", "b\",\"c");
    assert WriteInternal(ErrorMessage(Some("a\",\"b"), Some("c"))).value == Header + Row("a\",\"b", "c");
    assert WriteInternal(ErrorMessage(Some("a"), Some("b\",\"c"))).value == Header + Row("a", "b\",\"c");
  }

  /** A message obtained by reading cannot be written back: its fields are unset. */
  lemma ReadThenWriteFails(input: string)
    ensures WriteInternal(ReadInternal(input)).None?
  {
  }
}

=== FILE: groups.dfy ===
/** Group constraints: which registry items make up a group, stated as three
    keyword-to-values maps. */
module Groups {

  /** A registry document: each keyword carries the list of its values. */
  type Document = map<string, seq<string>>

  /** The `all`, `any` and `not` parts of a group. Immutable: the maps are values. */
  datatype GroupConstraint = GroupConstraint(
    all: map<string, seq<string>>,
    any: map<string, seq<string>>,
    not: map<string, seq<string>>)

  /** The constraint that imposes nothing. */
  const Unconstrained := GroupConstraint(map[], map[], map[])

  /** The document has `value` among the values of `keyword`. */
  predicate HasValue(doc: Document, keyword: string, value: string)
  {
    keyword in doc && value in doc[keyword]
  }

  /** One keyword entry holds when the document carries at least one of its
      listed values (several values under one keyword combine by OR). */
  predicate EntryHolds(doc: Document, keyword: string, values: seq<string>)
  {
    exists i :: 0 <= i < |values| && HasValue(doc, keyword, values[i])
  }

  /** Every listed entry holds. */
  predicate AllHold(doc: Document, m: map<string, seq<string>>)
  {
    forall k :: k in m ==> EntryHolds(doc, k, m[k])
  }

  /** At least one listed entry holds; an empty map imposes nothing. */
  predicate AnyHolds(doc: Document, m: map<string, seq<string>>)
  {
    m == map[] || exists k :: k in m && EntryHolds(doc, k, m[k])
  }

  /** None of the listed entries holds. */
  predicate NoneHolds(doc: Document, m: map<string, seq<string>>)
  {
    forall k :: k in m ==> !EntryHolds(doc, k, m[k])
  }

  /** A document belongs to the group when all three parts admit it. */
  predicate Admits(c: GroupConstraint, doc: Document)
  {
    AllHold(doc, c.all) && AnyHolds(doc, c.any) && NoneHolds(doc, c.not)
  }

  /** The unconstrained group admits every document. */
  lemma UnconstrainedAdmitsAll(doc: Document)
    ensures Admits(Unconstrained, doc)
  {
  }

  /** Adding an `all` entry for a new keyword admits exactly the documents
      that were admitted and also satisfy the entry. */
  lemma AddAllEntry(c: GroupConstraint, k: string, values: seq<string>, doc: Document)
    requires k !in c.all
    ensures Admits(c.(all := c.all[k := values]), doc)
        <==> Admits(c, doc) && EntryHolds(doc, k, values)
  {
    var all' := c.all[k := values];
    if AllHold(doc, all') {
      forall k' | k' in c.all ensures EntryHolds(doc, k', c.all[k']) {
        assert all'[k'] == c.all[k'];
      }
      assert all'[k] == values;
    }
  }

  /** Adding a `not` entry for a new keyword admits exactly the documents
      that were admitted and fail the entry. */
  lemma AddNotEntry(c: GroupConstraint, k: string, values: seq<string>, doc: Document)
    requires k !in c.not
    ensures Admits(c.(not := c.not[k := values]), doc)
        <==> Admits(c, doc) && !EntryHolds(doc, k, values)
  {
    var not' := c.not[k := values];
    if NoneHolds(doc, not') {
      forall k' | k' in c.not ensures !EntryHolds(doc, k', c.not[k']) {
        assert not'[k'] == c.not[k'];
      }
      assert not'[k] == values;
    }
  }

  /** Adding an `any` entry for a new keyword to a non-empty `any` part admits
      the documents admitted before plus those that satisfy the new entry
      (and the other two parts). Added to an empty `any` part, which imposed
      nothing, the entry narrows admission to the documents satisfying it. */
  lemma AddAnyEntry(c: GroupConstraint, k: string, values: seq<string>, doc: Document)
    requires k !in c.any
    ensures c.any != map[] ==>
      (Admits(c.(any := c.any[k := values]), doc) <==>
         AllHold(doc, c.all) && NoneHolds(doc, c.not)
         && (AnyHolds(doc, c.any) || EntryHolds(doc, k, values)))
    ensures c.any == map[] ==>
      (Admits(c.(any := c.any[k := values]), doc) <==>
         Admits(c, doc) && EntryHolds(doc, k, values))
  {
    var any' := c.any[k := values];
    assert any'[k] == values;
    assert k in any';
    if AnyHolds(doc, any') && !EntryHolds(doc, k, values) {
      var k' :| k' in any' && EntryHolds(doc, k', any'[k']);
      assert k' != k && any'[k'] == c.any[k'];
    }
    if c.any != map[] && AnyHolds(doc, c.any) {
      var k' :| k' in c.any && EntryHolds(doc, k', c.any[k']);
      assert any'[k'] == c.any[k'];
    }
  }

  /** A keyword listed with no values can never be satisfied: under `all` it
      excludes every document, under `not` it excludes none, so dropping it
      from `not` changes nothing. */
  lemma EmptyValueList(c: GroupConstraint, k: string, doc: Document)
    ensures k in c.all && c.all[k] == [] ==> !Admits(c, doc)
    ensures k in c.not && c.not[k] == [] ==>
      (Admits(c, doc) <==> Admits(c.(not := c.not - {k}), doc))
  {
    if k in c.not && c.not[k] == [] {
      var not' := c.not - {k};
      if NoneHolds(doc, not') {
        forall k' | k' in c.not ensures !EntryHolds(doc, k', c.not[k']) {
          if k' != k {
            assert k' in not' && not'[k'] == c.not[k'];
          }
        }
      }
    }
  }
}

=== FILE: negotiation.dfy ===
/** Accept-header negotiation against the fixed table of output formats that
    the request context builds in its constructor. */
module Negotiation {
  import opened Text

  /** The formatter classes of the table, as a closed variant. */
  datatype Formatter = PdsProduct | Wyriwyg | Pds4(asJson: bool)

  /** The eleven registered media types and the formatter each selects. */
  const FormatTable: map<string, Formatter> := map[
    "*" := PdsProduct,
    "*/*" := PdsProduct,
    "application/csv" := Wyriwyg,
    "application/json" := PdsProduct,
    "application/kvp+json" := Wyriwyg,
    "application/vnd.nasa.pds.pds4+json" := Pds4(true),
    "application/vnd.nasa.pds.pds4+xml" := Pds4(false),
    "application/xml" := PdsProduct,
    "text/csv" := Wyriwyg,
    "text/html" := PdsProduct,
    "text/xml" := PdsProduct
  ]

  /** A media type with its `;` parameters removed; no whitespace is trimmed. */
  function StripParameters(mime: string): string
  {
    CutAt(mime, ';')
  }

  predicate Registered(mime: string)
  {
    StripParameters(mime) in FormatTable
  }

  predicate AnyRegistered(mimes: seq<string>)
  {
    exists i :: 0 <= i < |mimes| && Registered(mimes[i])
  }

  /** Index of the first registered entry of `mimes`, or `|mimes|` if none is. */
  function FirstRegistered(mimes: seq<string>): (k: nat)
    ensures k <= |mimes|
    ensures k < |mimes| ==> Registered(mimes[k])
    ensures forall j :: 0 <= j < k ==> !Registered(mimes[j])
  {
    if mimes == [] then 0
    else if Registered(mimes[0]) then 0
    else 1 + FirstRegistered(mimes[1..])
  }

  /** Every registered key is a single token without parameters, so a key
      offered on its own is always recognised. */
  lemma KeysAreTokens(key: string)
    requires key in FormatTable
    ensures key != [] && ',' !in key && ';' !in key
  {
  }

  /** An Accept value that is exactly a registered key names a registered format. */
  lemma KeysNegotiateThemselves()
    ensures forall key :: key in FormatTable ==> AnyRegistered(Tokens(key, ','))
  {
    forall key | key in FormatTable
      ensures AnyRegistered(Tokens(key, ','))
    {
      KeysAreTokens(key);
      var ts := Tokens(key, ',');
      assert ts == [key];
      assert StripParameters(key) == key;
      assert Registered(ts[0]);
    }
  }

  /** The negotiated format: the first comma-separated entry of `fromUser`,
      cut at its first `;`, that names a registered format; the raw header
      value when no entry does. */
  function FindMatch(fromUser: string): (r: string)
    ensures var ts := Tokens(fromUser, ',');
      AnyRegistered(ts) ==>
        exists k :: 0 <= k < |ts| && r == StripParameters(ts[k])
          && Registered(ts[k])
          && forall j :: 0 <= j < k ==> !Registered(ts[j])
    ensures !AnyRegistered(Tokens(fromUser, ',')) ==> r == fromUser
    ensures r in FormatTable <==> AnyRegistered(Tokens(fromUser, ','))
  {
    var ts := Tokens(fromUser, ',');
    var k := FirstRegistered(ts);
    if k < |ts| then
      StripParameters(ts[k])
    else
      assert !AnyRegistered(ts);
      KeysNegotiateThemselves();
      fromUser
  }

  /** Selection follows the client's order: a registered first entry wins
      whatever follows it, even a format listed earlier in the table. */
  lemma {:induction false} ClientOrderWins(first: string, rest: seq<string>)
    requires WellFormedTokens([first] + rest, ',')
    requires Registered(first)
    ensures FindMatch(Join([first] + rest, ',')) == StripParameters(first)
  {
    TokensOfJoin([first] + rest, ',');
    var ts := [first] + rest;
    assert ts[0] == first;
    assert AnyRegistered(ts);
  }

  /** The worked example of a browser-style header. */
  lemma BrowserHeaderPicksHtml()
    ensures FindMatch("text/html,application/json;q=0.9") == "text/html"
  {
    var html, json := "text/html", "application/json;q=0.9";
    assert ',' !in html && ';' !in html;
    assert ',' !in json;
    assert WellFormedTokens([html] + [json], ',');
    assert Join([json], ',') == json;
    assert Join([html] + [json], ',') == html + [','] + json;
    assert html + [','] + json == "text/html,application/json;q=0.9";
    assert StripParameters(html) == html;
    ClientOrderWins(html, [json]);
  }
}

=== FILE: output_needs.dfy ===
/** The field list a request asks the registry for: the user's fields, the
    minimally required fields of the negotiated format, and the format's
    allow-list of maximally required fields. */
module OutputNeeds {
  import opened Common
  import opened Text
  import opened Negotiation

  /** What a formatter needs: fields it always requires, and the fields it
      allows at most (an empty allow-list means no restriction). */
  datatype FormatDescriptor = FormatDescriptor(minNeeds: seq<string>, maxNeeds: seq<string>)

  /** `a` can be obtained from `b` by deleting elements, keeping the order. */
  predicate IsSubsequence(a: seq<string>, b: seq<string>)
    decreases |b|
  {
    a == [] ||
    (b != [] &&
      ((a[0] == b[0] && IsSubsequence(a[1..], b[1..])) || IsSubsequence(a, b[1..])))
  }

  predicate Distinct(xs: seq<string>)
  {
    forall i, j :: 0 <= i < j < |xs| ==> xs[i] != xs[j]
  }

  /** Appends, in order, each entry of `mins` not already in the list built
      so far; the list is checked after every append, so each is added once,
      at the place of its first occurrence in `mins`. */
  function AppendMissing(acc: seq<string>, mins: seq<string>): (r: seq<string>)
    ensures |acc| <= |r| && r[..|acc|] == acc
    ensures forall x :: x in r <==> x in acc || x in mins
    ensures forall i :: |acc| <= i < |r| ==> r[i] !in acc
    ensures forall i, j :: |acc| <= i < j < |r| ==> r[i] != r[j]
    ensures forall i, j :: |acc| <= i < j < |r| ==> IndexOf(mins, r[i]) < IndexOf(mins, r[j])
    ensures IsSubsequence(r[|acc|..], mins)
    decreases |mins|
  {
    if mins == [] then acc
    else if mins[0] in acc then
      var r := AppendMissing(acc, mins[1..]);
      assert mins == [mins[0]] + mins[1..];
      r
    else
      var acc' := acc + [mins[0]];
      var r := AppendMissing(acc', mins[1..]);
      assert r[..|acc|] == acc by { assert r[..|acc|] == acc'[..|acc|]; }
      assert r[|acc|] == mins[0] by { assert r[|acc|] == acc'[|acc|]; }
      assert r[|acc|..][1..] == r[|acc'|..];
      assert mins == [mins[0]] + mins[1..];
      r
  }

  /** The entries of `xs` that occur in `allowed`, in their order in `xs`;
      every occurrence of an allowed entry is kept, repeats included. */
  function KeepAllowed(xs: seq<string>, allowed: seq<string>): (r: seq<string>)
    ensures forall x :: x in r <==> x in xs && x in allowed
    ensures forall x :: multiset(r)[x] == if x in allowed then multiset(xs)[x] else 0
    ensures IsSubsequence(r, xs)
    ensures (forall x :: x in xs ==> x in allowed) ==> r == xs
  {
    if xs == [] then []
    else if xs[0] in allowed then
      var r := [xs[0]] + KeepAllowed(xs[1..], allowed);
      assert xs == [xs[0]] + xs[1..];
      assert r[1..] == KeepAllowed(xs[1..], allowed);
      r
    else
      assert xs == [xs[0]] + xs[1..];
      KeepAllowed(xs[1..], allowed)
  }

  /** The field list of a request whose negotiated format is `format`.
      `toOpen` is the property-name translation applied alike to the user's
      fields and to both lists of the format's descriptor. Fails when the
      format is not registered, naming it and the registered keys. */
  function AddOutputNeeds(given: seq<string>, format: string,
                          needs: Formatter -> FormatDescriptor,
                          toOpen: seq<string> -> seq<string>): (r: Result<seq<string>>)
    ensures r.Err? <==> format !in FormatTable
    ensures format !in FormatTable ==> r == Err(UnsupportedFormat(format, FormatTable.Keys))
    ensures r.Ok? ==>
      var g, d := toOpen(given), needs(FormatTable[format]);
      var mn, mx := toOpen(d.minNeeds), toOpen(d.maxNeeds);
      && (|mx| > 0 ==> forall f :: f in r.value ==> f in mx)
      && (forall f :: f in r.value ==> f in g || f in mn)
      && ((|g| > 0 || |mx| > 0) ==>
            forall m :: m in mn && (|mx| == 0 || m in mx) ==> m in r.value)
      && ((|g| > 0 || |mx| > 0) ==>
            forall f :: f in g && (|mx| == 0 || f in mx) ==> f in r.value)
      && (|g| == 0 && |mx| == 0 ==> r.value == [])
      && (|mx| == 0 && |g| > 0 ==> |g| <= |r.value| && r.value[..|g|] == g)
  {
    var g := toOpen(given);
    if format !in FormatTable then
      Err(UnsupportedFormat(format, FormatTable.Keys))
    else
      var d := needs(FormatTable[format]);
      var mx, mn := toOpen(d.maxNeeds), toOpen(d.minNeeds);
      var complete := if 0 < |g| || 0 < |mx| then AppendMissing(g, mn) else [];
      if 0 < |mx| then Ok(KeepAllowed(complete, mx)) else Ok(complete)
  }

  /** When the user's fields are duplicate-free, so is the computed list. */
  lemma {:induction false} AppendMissingKeepsDistinct(acc: seq<string>, mins: seq<string>)
    requires Distinct(acc)
    ensures Distinct(AppendMissing(acc, mins))
  {
    var r := AppendMissing(acc, mins);
    forall i, j | 0 <= i < j < |r|
      ensures r[i] != r[j]
    {
      if j < |acc| {
        assert r[i] == acc[i] && r[j] == acc[j];
      } else if i < |acc| {
        assert r[i] == acc[i];
        assert r[i] in acc;
      }
    }
  }

  lemma DistinctTail(xs: seq<string>)
    requires xs != [] && Distinct(xs)
    ensures Distinct(xs[1..]) && xs[0] !in xs[1..]
  {
    forall i, j | 0 <= i < j < |xs[1..]| ensures xs[1..][i] != xs[1..][j] {
      assert xs[1..][i] == xs[i + 1] && xs[1..][j] == xs[j + 1];
    }
    forall k | 0 <= k < |xs[1..]| ensures xs[1..][k] != xs[0] {
      assert xs[1..][k] == xs[k + 1];
    }
  }

  lemma DistinctCons(x: string, rest: seq<string>)
    requires x !in rest && Distinct(rest)
    ensures Distinct([x] + rest)
  {
    var r := [x] + rest;
    forall i, j | 0 <= i < j < |r| ensures r[i] != r[j] {
      assert r[j] == rest[j - 1];
      if i > 0 {
        assert r[i] == rest[i - 1];
      }
    }
  }

  lemma {:induction false} KeepAllowedKeepsDistinct(xs: seq<string>, allowed: seq<string>)
    requires Distinct(xs)
    ensures Distinct(KeepAllowed(xs, allowed))
    decreases |xs|
  {
    if xs != [] {
      DistinctTail(xs);
      KeepAllowedKeepsDistinct(xs[1..], allowed);
      if xs[0] in allowed {
        DistinctCons(xs[0], KeepAllowed(xs[1..], allowed));
      }
    }
  }

  /** The computed field list repeats no field when the user's list repeats none. */
  lemma OutputNeedsDistinct(given: seq<string>, format: string,
                            needs: Formatter -> FormatDescriptor,
                            toOpen: seq<string> -> seq<string>)
    requires Distinct(toOpen(given))
    ensures var r := AddOutputNeeds(given, format, needs, toOpen);
      r.Ok? ==> Distinct(r.value)
  {
    if format in FormatTable {
      var g := toOpen(given);
      var d := needs(FormatTable[format]);
      var mx, mn := toOpen(d.maxNeeds), toOpen(d.minNeeds);
      AppendMissingKeepsDistinct(g, mn);
      var complete := if 0 < |g| || 0 < |mx| then AppendMissing(g, mn) else [];
      KeepAllowedKeepsDistinct(complete, mx);
    }
  }

  /** The pre-filter list is the user's fields followed by the missing minimal
      fields; with an allow-list, the result is that list with the disallowed
      entries deleted in place, every allowed entry kept as often as it
      occurs, and without one it is that list itself. */
  lemma OutputNeedsOrder(given: seq<string>, format: string,
                         needs: Formatter -> FormatDescriptor,
                         toOpen: seq<string> -> seq<string>)
    requires format in FormatTable
    ensures var r := AddOutputNeeds(given, format, needs, toOpen);
      var g, d := toOpen(given), needs(FormatTable[format]);
      var mn, mx := toOpen(d.minNeeds), toOpen(d.maxNeeds);
      && (|mx| > 0 ==> IsSubsequence(r.value, AppendMissing(g, mn)))
      && (|mx| > 0 ==>
            forall x :: multiset(r.value)[x]
                     == if x in mx then multiset(AppendMissing(g, mn))[x] else 0)
      && (|mx| == 0 && |g| > 0 ==> r.value == AppendMissing(g, mn))
  {
  }
}

=== FILE: request_context.dfy ===
/** The per-request context: built once from the user's parameters, then
    read by query construction and response assembly. */
module RequestContext {
  import opened Common
  import opened Text
  import opened Negotiation
  import opened OutputNeeds
  import opened Groups
  import opened Versions

  /** The user's request parameters. */
  datatype UserParameters = UserParameters(
    accept: string,
    query: string,
    keywords: seq<string>,
    fields: seq<string>,
    identifier: string,
    selector: Selector,
    start: int,
    limit: int,
    singular: bool,
    sort: seq<string>)

  /** What identifier resolution is handed: the raw identifier, the selector
      it runs under, whether the user asked for the latest version, the
      computed field list and the resolution preset. */
  datatype ResolveRequest = ResolveRequest(
    identifier: string,
    scope: Selector,
    latest: bool,
    fields: seq<string>,
    preset: GroupConstraint)

  /** Identifier resolution, whose implementation is outside this model. */
  type Resolver = ResolveRequest -> Result<Option<ProductIdentifier>>

  datatype Context = Context(
    format: string,
    formatter: Formatter,
    query: string,
    keywords: seq<string>,
    identifier: Option<ProductIdentifier>,
    fields: seq<string>,
    sort: seq<string>,
    start: int,
    limit: int,
    singular: bool,
    preset: GroupConstraint,
    selector: Selector)
  {
    /** Whether queries add a latest-version-only filter. */
    function JustLatest(): bool
    {
      Versions.JustLatest(selector, identifier)
    }
  }

  /** The Accept value names a registered format somewhere in its list. */
  predicate AcceptSupported(accept: string)
  {
    AnyRegistered(Tokens(accept, ','))
  }

  /** The constructor: negotiate the format, compute the field list (failing
      on an unsupported format), then resolve the identifier with the final
      field list, under the scoped selector. */
  function Build(p: UserParameters, outPreset: GroupConstraint, resPreset: GroupConstraint,
                 needs: Formatter -> FormatDescriptor,
                 toOpen: seq<string> -> seq<string>,
                 resolve: Resolver): (r: Result<Context>)
    ensures !AcceptSupported(p.accept) ==>
      r == Err(UnsupportedFormat(p.accept, FormatTable.Keys))
    ensures r.Ok? ==>
      var c := r.value;
      && AcceptSupported(p.accept)
      && c.format == FindMatch(p.accept)
      && c.format in FormatTable && c.formatter == FormatTable[c.format]
      && AddOutputNeeds(p.fields, c.format, needs, toOpen) == Ok(c.fields)
      && resolve(ResolveRequest(p.identifier, VersionScope(outPreset, resPreset, p.selector),
                                p.selector == Latest, c.fields, resPreset)) == Ok(c.identifier)
      && c.query == p.query && c.keywords == p.keywords && c.sort == p.sort
      && c.start == p.start && c.limit == p.limit && c.singular == p.singular
      && c.preset == outPreset && c.selector == p.selector
    ensures AcceptSupported(p.accept) ==>
      var format := FindMatch(p.accept);
      var fields := AddOutputNeeds(p.fields, format, needs, toOpen).value;
      var resolved := resolve(ResolveRequest(p.identifier, VersionScope(outPreset, resPreset, p.selector),
                                             p.selector == Latest, fields, resPreset));
      (r.Ok? <==> resolved.Ok?) && (resolved.Err? ==> r.error == resolved.error)
  {
    var scope := VersionScope(outPreset, resPreset, p.selector);
    var format := FindMatch(p.accept);
    var fields :- AddOutputNeeds(p.fields, format, needs, toOpen);
    var identifier :- resolve(ResolveRequest(p.identifier, scope, p.selector == Latest, fields, resPreset));
    Ok(Context(format, FormatTable[format], p.query, p.keywords, identifier, fields, p.sort,
               p.start, p.limit, p.singular, outPreset, p.selector))
  }

  /** An unsupported Accept value fails before resolution: the resolver
      cannot influence the outcome. */
  lemma UnsupportedFailsBeforeResolution(p: UserParameters, outPreset: GroupConstraint,
                                         resPreset: GroupConstraint,
                                         needs: Formatter -> FormatDescriptor,
                                         toOpen: seq<string> -> seq<string>,
                                         resolve1: Resolver, resolve2: Resolver)
    requires !AcceptSupported(p.accept)
    ensures Build(p, outPreset, resPreset, needs, toOpen, resolve1)
         == Build(p, outPreset, resPreset, needs, toOpen, resolve2)
    ensures Build(p, outPreset, resPreset, needs, toOpen, resolve1).Err?
  {
  }

  /** When output and resolution presets coincide, resolution runs under the
      user's own selector; a context built from distinct presets resolves
      the identifier exactly as typed. */
  lemma ScopeFollowsPresets(p: UserParameters, outPreset: GroupConstraint,
                            resPreset: GroupConstraint,
                            needs: Formatter -> FormatDescriptor,
                            toOpen: seq<string> -> seq<string>,
                            resolve: Resolver)
    ensures var r := Build(p, outPreset, resPreset, needs, toOpen, resolve);
      var scope := if outPreset == resPreset then p.selector else Typed;
      r.Ok? ==>
        resolve(ResolveRequest(p.identifier, scope, p.selector == Latest, r.value.fields, resPreset))
          == Ok(r.value.identifier)
  {
  }

  /** For a built context, the latest-only filter is on exactly when the user
      asked for the latest version and the resolver answered with no
      identifier or with a LID alone; a LIDVID answer turns it off, whether
      the version was typed or found by resolution. */
  lemma BuiltJustLatest(p: UserParameters, outPreset: GroupConstraint,
                        resPreset: GroupConstraint,
                        needs: Formatter -> FormatDescriptor,
                        toOpen: seq<string> -> seq<string>,
                        resolve: Resolver)
    ensures var r := Build(p, outPreset, resPreset, needs, toOpen, resolve);
      r.Ok? ==>
        var answer := resolve(ResolveRequest(p.identifier, VersionScope(outPreset, resPreset, p.selector),
                                             p.selector == Latest, r.value.fields, resPreset));
        && answer.Ok?
        && (r.value.JustLatest() <==>
              p.selector == Latest && (answer.value.None? || answer.value.value.Lid?))
        && (r.value.JustLatest() ==>
              ResolveRequest(p.identifier, VersionScope(outPreset, resPreset, p.selector),
                             p.selector == Latest, r.value.fields, resPreset).latest)
  {
  }
}

=== FILE: responses.dfy ===
/** Response assembly: how the context queries the registry (singular or
    plural window), how it turns the hits into the formatter's input and the
    summary, and when it reports that nothing was found. */
module Responses {
  import opened Common
  import opened Negotiation
  import opened OutputNeeds
  import opened Groups
  import opened Versions
  import opened RequestContext

  /** The `from`/`size` window of a search request. */
  datatype Window = Window(from: int, size: int)

  /** A registry answer: the reported total (absent when it cannot be
      parsed) and the returned documents. */
  datatype SearchHits = SearchHits(totalHits: Option<int>, hits: seq<Document>)

  /** The summary echoed with a plural response; elapsed time is not modelled. */
  datatype Summary = Summary(
    q: string,
    start: int,
    limit: int,
    sort: seq<string>,
    hits: int,
    properties: Option<seq<string>>)

  /** What the formatter is handed: one hit, or a page of hits with its summary. */
  datatype Payload =
    | Single(formatter: Formatter, hit: Document, fields: seq<string>)
    | Page(formatter: Formatter, hits: seq<Document>, summary: Summary, fields: seq<string>)

  /** A registry search for the context's query over a window: a hit set,
      `None` for a null hit set, or the I/O failure of the round trip. */
  type Backend = Window -> Result<Option<SearchHits>>

  const SingularWindow := Window(0, 2)

  /** The window a context asks for: two hits from the start in singular
      mode, so that "exactly one" and "more than one" can be told apart;
      otherwise the user's start and limit. */
  function RequestedWindow(c: Context): (w: Window)
    ensures c.singular ==> w == Window(0, 2)
    ensures !c.singular ==> w.from == c.start && w.size == c.limit
  {
    if c.singular then SingularWindow else Window(c.start, c.limit)
  }

  /** A summary echoing the context's query, start, limit and sort. */
  function SummaryOf(c: Context, hits: int, properties: Option<seq<string>>): Summary
  {
    Summary(c.query, c.start, c.limit, c.sort, hits, properties)
  }

  predicate Echoes(s: Summary, c: Context)
  {
    s.q == c.query && s.start == c.start && s.limit == c.limit && s.sort == c.sort
  }

  /** The explicit-total overload: with a non-null hit set, hand the formatter
      the hits and a summary reporting `total` verbatim; otherwise do nothing. */
  function WithTotal(c: Context, hits: Option<SearchHits>, unique: Option<seq<string>>,
                     total: int): (r: Option<Payload>)
    ensures hits.None? <==> r.None?
    ensures r.Some? ==>
      && r.value.Page? && r.value.formatter == c.formatter && r.value.fields == c.fields
      && r.value.hits == hits.value.hits
      && r.value.summary.hits == total
      && r.value.summary.properties == unique
      && Echoes(r.value.summary, c)
  {
    match hits
    case None => None
    case Some(h) => Some(Page(c.formatter, h.hits, SummaryOf(c, total, unique), c.fields))
  }

  /** The hit-iterator overload: the formatter's own count is reported unless
      a positive externally known total replaces it. */
  function IteratorSummary(c: Context, counted: int, realTotal: int): (s: Summary)
    ensures realTotal > 0 ==> s.hits == realTotal
    ensures realTotal <= 0 ==> s.hits == counted
    ensures s.properties == Some([])
    ensures Echoes(s, c)
  {
    var s := SummaryOf(c, counted, Some([]));
    if 0 < realTotal then s.(hits := realTotal) else s
  }

  /** The two ways of overriding a count agree: with a positive real total,
      the hit-iterator summary is the summary the explicit-total overload
      builds for that total with an empty property list, whatever the
      formatter counted. */
  lemma IteratorMatchesExplicitTotal(c: Context, counted: int, realTotal: int, h: SearchHits)
    requires realTotal > 0
    ensures IteratorSummary(c, counted, realTotal)
         == WithTotal(c, Some(h), Some([]), realTotal).value.summary
  {
  }

  /** Runs the context's query and records the formatter's input. A failed
      search propagates its error. Singular mode classifies the hit count:
      one hit is formatted, more than one or an unparsable count is an I/O
      failure, none leaves nothing set. Plural mode reports the registry's
      total, narrowed to a 32-bit int. */
  function SetResponse(c: Context, backend: Backend): (r: Result<Option<Payload>>)
    ensures backend(RequestedWindow(c)).Err? ==> r == Err(backend(RequestedWindow(c)).error)
    ensures c.singular && backend(SingularWindow).Ok? ==>
      var h := backend(SingularWindow).value;
      && (h.None? || h.value.totalHits.None? ==> r == Err(UnparsableHitCount))
      && (h.Some? && h.value.totalHits.Some? ==>
            var n := h.value.totalHits.value;
            && (n == 1 && h.value.hits != [] ==> r == Ok(Some(Single(c.formatter, h.value.hits[0], c.fields))))
            && (n == 1 && h.value.hits == [] ==> r.Err? && r.error.Runtime?)
            && (n > 1 ==> r == Err(AmbiguousSingular(n)))
            && (n < 1 ==> r == Ok(None)))
    ensures !c.singular && backend(Window(c.start, c.limit)).Ok? ==>
      var h := backend(Window(c.start, c.limit)).value;
      && (h.None? ==> r == Ok(None))
      && (h.Some? && h.value.totalHits.None? ==> r.Err? && r.error.Runtime?)
      && (h.Some? && h.value.totalHits.Some? ==>
            r.Ok? && r.value.Some? && r.value.value.Page?
            && r.value.value.formatter == c.formatter && r.value.value.fields == c.fields
            && r.value.value.hits == h.value.hits
            && r.value.value.summary.hits == ToInt32(h.value.totalHits.value)
            && r.value.value.summary.properties.None?
            && Echoes(r.value.value.summary, c))
  {
    var w := RequestedWindow(c);
    var h :- backend(w);
    if c.singular then
      if h.None? || h.value.totalHits.None? then Err(UnparsableHitCount)
      else
        var n := h.value.totalHits.value;
        if n == 1 then
          if h.value.hits == [] then Err(Runtime("hit index 0 out of range"))
          else Ok(Some(Single(c.formatter, h.value.hits[0], c.fields)))
        else if n > 1 then Err(AmbiguousSingular(n))
        else Ok(None)
    else
      match h
      case None => Ok(None)
      case Some(hits) =>
        if hits.totalHits.None? then Err(Runtime("total hits missing"))
        else Ok(WithTotal(c, h, None, ToInt32(hits.totalHits.value)))
  }

  /** The null dereference of the product identifier, which the
      nothing-found path performs while logging the request. */
  const NullIdentifier := Runtime("product identifier is null")

  /** The payload of a finished request. When none was set, the request is
      logged before NothingFound is raised, and logging dereferences the
      product identifier: with no identifier that fails first. */
  function GetResponse(c: Context, payload: Option<Payload>): (r: Result<Payload>)
    ensures payload.Some? ==> r == Ok(payload.value)
    ensures payload.None? && c.identifier.Some? ==> r == Err(NothingFound)
    ensures payload.None? && c.identifier.None? ==> r == Err(NullIdentifier)
    ensures r.Ok? <==> payload.Some?
  {
    match payload
    case Some(p) => Ok(p)
    case None => if c.identifier.None? then Err(NullIdentifier) else Err(NothingFound)
  }

  /** Query, then read back the payload: a query failure passes through, a
      query that set nothing ends in NothingFound, or in the null dereference
      when the context has no identifier. */
  function Respond(c: Context, backend: Backend): (r: Result<Payload>)
    ensures SetResponse(c, backend).Err? ==> r == Err(SetResponse(c, backend).error)
    ensures SetResponse(c, backend) == Ok(None) && c.identifier.Some? ==> r == Err(NothingFound)
    ensures SetResponse(c, backend) == Ok(None) && c.identifier.None? ==> r == Err(NullIdentifier)
    ensures SetResponse(c, backend).Ok? && SetResponse(c, backend).value.Some? ==>
      r == Ok(SetResponse(c, backend).value.value)
  {
    var payload :- SetResponse(c, backend);
    GetResponse(c, payload)
  }

  /** Singular mode never looks at the user's start and limit. */
  lemma SingularIgnoresPaging(c: Context, backend: Backend, start: int, limit: int)
    requires c.singular
    ensures SetResponse(c, backend) == SetResponse(c.(start := start, limit := limit), backend)
  {
  }

  /** A singular lookup whose registry reports 0, 1 or 2 hits ends in
      NothingFound (the null dereference when no identifier was resolved),
      the single formatted hit, or an ambiguity failure. */
  lemma SingularZeroOneMany(c: Context, backend: Backend, n: int, docs: seq<Document>)
    requires c.singular
    requires backend(SingularWindow) == Ok(Some(SearchHits(Some(n), docs)))
    ensures n == 0 && c.identifier.Some? ==> Respond(c, backend) == Err(NothingFound)
    ensures n == 0 && c.identifier.None? ==> Respond(c, backend) == Err(NullIdentifier)
    ensures n == 1 && docs != [] ==> Respond(c, backend) == Ok(Single(c.formatter, docs[0], c.fields))
    ensures n >= 2 ==> Respond(c, backend) == Err(AmbiguousSingular(n))
  {
  }

  /** Plural mode treats an empty hit set as a page of zero hits, not as
      NothingFound. */
  lemma PluralEmptyIsPage(c: Context, backend: Backend)
    requires !c.singular
    requires backend(Window(c.start, c.limit)) == Ok(Some(SearchHits(Some(0), [])))
    ensures Respond(c, backend).Ok?
    ensures Respond(c, backend).value.Page? && Respond(c, backend).value.summary.hits == 0
  {
  }

  /** A page of identifiers to fetch: the identifiers, the request size, and
      the total known upstream. */
  datatype IdPage = IdPage(page: seq<string>, size: int, total: int)

  /** A registry search for a page of identifiers with the given size. */
  type PageBackend = (seq<string>, int) -> Result<Option<SearchHits>>

  /** The builder for a page of identifiers: build the context with the
      same preset on both sides, search with the page's size, and
      report the page's total rather than the registry's. A failed search
      propagates its error. */
  function BuildForPage(p: UserParameters, any: GroupConstraint,
                        needs: Formatter -> FormatDescriptor,
                        toOpen: seq<string> -> seq<string>,
                        resolve: Resolver, ids: IdPage,
                        backend: PageBackend): (r: Result<(Context, Option<Payload>)>)
    ensures r.Ok? ==> Build(p, any, any, needs, toOpen, resolve) == Ok(r.value.0)
    ensures r.Ok? ==> r.value.0.preset == any
    ensures Build(p, any, any, needs, toOpen, resolve).Ok? ==>
      var h := backend(ids.page, ids.size);
      && (h.Err? ==> r == Err(h.error))
      && (h.Ok? ==>
            && r.Ok?
            && (h.value.None? <==> r.value.1.None?)
            && (r.value.1.Some? ==>
                  && r.value.1.value.Page?
                  && r.value.1.value.formatter == r.value.0.formatter
                  && r.value.1.value.fields == r.value.0.fields
                  && r.value.1.value.hits == h.value.value.hits
                  && r.value.1.value.summary.hits == ids.total
                  && r.value.1.value.summary.properties.None?
                  && Echoes(r.value.1.value.summary, r.value.0)))
    ensures Build(p, any, any, needs, toOpen, resolve).Err? ==> r.Err?
  {
    var c :- Build(p, any, any, needs, toOpen, resolve);
    var hits :- backend(ids.page, ids.size);
    Ok((c, WithTotal(c, hits, None, ids.total)))
  }

  /** Three identifiers fetched out of a known total of nine: a built
      response reports nine, whatever total the registry reports for the three. */
  lemma BatchReportsKnownTotal(p: UserParameters, any: GroupConstraint,
                               needs: Formatter -> FormatDescriptor,
                               toOpen: seq<string> -> seq<string>,
                               resolve: Resolver, backend: PageBackend,
                               a: Document, b: Document, d: Document)
    requires backend(["a", "b", "c"], 3) == Ok(Some(SearchHits(Some(3), [a, b, d])))
    ensures var r := BuildForPage(p, any, needs, toOpen, resolve, IdPage(["a", "b", "c"], 3, 9), backend);
      r.Ok? ==>
        r.value.1.Some? && r.value.1.value.summary.hits == 9 && |r.value.1.value.hits| == 3
  {
  }
}

=== FILE: text.dfy ===
/** String helpers for the Java library calls the request context relies on:
    `indexOf` (which here answers the length, not -1, when the character is
    absent; the request context only calls it after checking `contains`),
    `substring`, and a `StringTokenizer` that never returns empty tokens. */
module Text {

  /** Position of the first `c` in `s`, or `|s|` when there is none. */
  function IndexOf<T(==)>(s: seq<T>, c: T): (i: nat)
    ensures i <= |s|
    ensures i < |s| ==> s[i] == c
    ensures forall j :: 0 <= j < i ==> s[j] != c
  {
    if s == [] then 0
    else if s[0] == c then 0
    else 1 + IndexOf(s[1..], c)
  }

  /** The part of `s` before its first `c` (all of `s` when `c` does not occur). */
  function CutAt(s: string, c: char): (r: string)
    ensures c !in r
    ensures |r| <= |s| && r == s[..|r|]
    ensures |r| < |s| ==> s[|r|] == c
    ensures r == s <==> c !in s
  {
    s[..IndexOf(s, c)]
  }

  /** The maximal non-empty runs of `s` that contain no `d`, in order: what
      a tokenizer over delimiter `d` hands out, one token per call. */
  function Tokens(s: string, d: char): (ts: seq<string>)
    ensures WellFormedTokens(ts, d)
    ensures d !in s ==> ts == (if s == [] then [] else [s])
    decreases |s|
  {
    if s == [] then []
    else if s[0] == d then Tokens(s[1..], d)
    else
      var n := IndexOf(s, d);
      assert d !in s ==> n == |s| && s[..n] == s && s[n..] == [];
      [s[..n]] + Tokens(s[n..], d)
  }

  /** The tokens written back with one delimiter between neighbours. */
  function Join(ts: seq<string>, d: char): string
  {
    if |ts| == 0 then []
    else if |ts| == 1 then ts[0]
    else ts[0] + [d] + Join(ts[1..], d)
  }

  /** A token list is well formed when no token is empty or holds the delimiter. */
  predicate WellFormedTokens(ts: seq<string>, d: char)
  {
    forall i :: 0 <= i < |ts| ==> ts[i] != [] && d !in ts[i]
  }

  lemma IndexOfPrefix(t: string, rest: string, d: char)
    requires d !in t
    ensures IndexOf(t + [d] + rest, d) == |t|
    ensures IndexOf(t, d) == |t|
  {
    var s := t + [d] + rest;
    var i := IndexOf(s, d);
    assert s[|t|] == d;
  }

  /** Tokenizing a joined list of well-formed tokens gives the list back. */
  lemma {:induction false} TokensOfJoin(ts: seq<string>, d: char)
    requires WellFormedTokens(ts, d)
    ensures Tokens(Join(ts, d), d) == ts
  {
    if |ts| == 0 {
    } else if |ts| == 1 {
      var t := ts[0];
      IndexOfPrefix(t, [], d);
      assert t[0] != d by { assert t[0] in t; }
      assert t[..|t|] == t && t[|t|..] == [];
    } else {
      var t := ts[0];
      var rest := Join(ts[1..], d);
      var s := t + [d] + rest;
      assert Join(ts, d) == s;
      IndexOfPrefix(t, rest, d);
      assert s[0] == t[0] && t[0] != d by { assert t[0] in t; }
      assert s[..|t|] == t;
      assert s[|t|..] == [d] + rest;
      assert ([d] + rest)[1..] == rest;
      assert WellFormedTokens(ts[1..], d) by {
        forall i | 0 <= i < |ts[1..]|
          ensures ts[1..][i] != [] && d !in ts[1..][i]
        {
          assert ts[1..][i] == ts[i + 1];
        }
      }
      TokensOfJoin(ts[1..], d);
      assert ts == [t] + ts[1..];
    }
  }

  /** Where the first `d` of a concatenation lies: in `a` if `a` holds one,
      otherwise in `b`, shifted by `|a|`. */
  lemma IndexOfConcat(a: string, b: string, d: char)
    ensures IndexOf(a + b, d) ==
      if IndexOf(a, d) < |a| then IndexOf(a, d) else |a| + IndexOf(b, d)
  {
    var s := a + b;
    var i, ia, ib := IndexOf(s, d), IndexOf(a, d), IndexOf(b, d);
    if ia < |a| {
      assert s[ia] == a[ia];
    } else if ib < |b| {
      assert s[|a| + ib] == b[ib];
    }
  }

  /** A delimiter splits the input: the tokens of `s1 + d + s2` are the
      tokens of `s1` followed by those of `s2`. Empty entries (leading,
      trailing, or between two delimiters) thus contribute nothing. */
  lemma {:induction false} TokensOfConcat(s1: string, s2: string, d: char)
    ensures Tokens(s1 + [d] + s2, d) == Tokens(s1, d) + Tokens(s2, d)
    decreases |s1|
  {
    var s := s1 + [d] + s2;
    if s1 == [] {
      assert s[1..] == s2;
    } else if s1[0] == d {
      assert s[1..] == s1[1..] + [d] + s2;
      TokensOfConcat(s1[1..], s2, d);
    } else {
      var m := IndexOf(s1, d);
      IndexOfConcat(s1, [d] + s2, d);
      assert s == s1 + ([d] + s2);
      var n := IndexOf(s, d);
      if m < |s1| {
        assert n == m;
        assert m > 0;
        assert s[..n] == s1[..m];
        assert s[n..] == s1[m..] + [d] + s2;
        TokensOfConcat(s1[m..], s2, d);
      } else {
        assert n == |s1|;
        assert s[..n] == s1;
        assert s[n..] == [d] + s2;
        assert ([d] + s2)[1..] == s2;
        assert s1[..m] == s1 && s1[m..] == [];
      }
    }
  }
}

=== FILE: versions.dfy ===
/** Product identifiers and the version selector of a request. */
module Versions {
  import opened Common
  import opened Groups

  /** Latest version only, every version, or the version exactly as given. */
  datatype Selector = Latest | All | Typed

  /** A logical identifier alone, or one qualified by a version. */
  datatype ProductIdentifier = Lid(lid: string) | LidVid(lid: string, vid: string)

  /** The selector identifier resolution runs under: the user's selector when
      the output and resolution presets are the same group, otherwise the
      exact version as typed. */
  function VersionScope(outPreset: GroupConstraint, resPreset: GroupConstraint,
                        requested: Selector): (s: Selector)
    ensures s == requested || s == Typed
    ensures outPreset == resPreset ==> s == requested
    ensures outPreset != resPreset ==> s == Typed
  {
    if outPreset == resPreset then requested else Typed
  }

  /** Whether queries must add a latest-version-only filter: the selector asks
      for the latest version and the resolved identifier names no version
      (an absent identifier names none). */
  function JustLatest(selector: Selector, id: Option<ProductIdentifier>): (b: bool)
    ensures b ==> selector == Latest
    ensures id.Some? && id.value.LidVid? ==> !b
    ensures selector == Latest && (id.None? || id.value.Lid?) ==> b
  {
    var specificVersionRequested := id.Some? && id.value.LidVid?;
    selector == Latest && !specificVersionRequested
  }
}
